=== FILE: README.md ===
# twentyfaces core, modelled in Dafny

twentyfaces switches a Twitter account between named profiles. This project models two pure parts of it:

- **Profile configuration** (`src/config.rs`):
  - the configuration records: `AuthInfo`, `Property`, `Profile`, `Config` and `ResolvedProfile`;
  - the profile-list checks of `Config::validate`, which run after the account check: keys are distinct, every `derive` chain ends, and every `matches` pattern compiles;
  - `Profile::resolve`, which fills the seven inheritable attributes along the `derive` chain, "first writer wins";
  - the sample configuration written on first run.
- **Timeline decoding** (`src/twitter_api/models.rs`):
  - the typed field readers;
  - `User::deserialize_json_value` and `Status::deserialize_json_value`, including direct-message detection, suppression of embedded statuses, the reply-id filter and required fields;
  - `Status::deserialize_timeline`.

Modules, one per component:

| module | file | what it holds |
|---|---|---|
| `Wrappers` | wrappers.dfy | `Option`, `Result`, `Outcome` |
| `Ints` | ints.dfy | the `u64` range |
| `Json` | json.dfy | a parsed JSON tree and the `serde_json::Value` accessors the decoders use |
| `Models` | models.dfy | the decoders |
| `StatusEncoding` | models_encode.dfy | an encoder from statuses to JSON, plus round-trip lemmas that tie it to the decoders |
| `Config` | config.dfy | data shapes, key lookup in list order, the samples |
| `DeriveChain` | derive_chain.dfy | walking `derive` links with a step budget, and why `|profiles|` steps decide termination |
| `Resolve` | resolve.dfy | `Profile::resolve` as a loop with invariants, against a reference definition |
| `Validate` | validate.dfy | the three checks, the validation as written and the validation with cycles rejected |

External collaborators (the regex crate, serde_json's parser and renderer) are parameters:

- the regular-expression compiler is `valid: string -> bool`, saying which patterns compile;
- the JSON text parser is `parse: string -> Option<Value>`;
- the JSON renderer that the encoder uses for a recipient is `render: Value -> string`.

Neither source loop that walks `derive` links detects a cycle, so a walk that reaches a cycle never returns. The walk therefore carries a step budget. `validate` hangs when the first chain, in list order, that does not end at a root is cyclic (`Validate.ValidateMatchesSource`). A duplicate key or an earlier dangling chain makes it return first. `resolve` hangs when the chain from its own key is cyclic (`Resolve.ResolveTerminatesExactly`). `DeriveChain.BudgetSuffices` proves that a walk still going after one step per profile goes on for every budget. This is the exact condition under which the source loops forever.

## Model

| member | source | states |
|---|---|---|
| Models.ReadBool | src/twitter_api/models.rs:109-115 | The boolean reader succeeds exactly when the value is an object whose field is a JSON boolean, and returns that boolean. Otherwise it fails with a data error naming the key and carrying the object. |
| Models.ReadString | src/twitter_api/models.rs:117-132 | The string reader, for both the borrowed and the owned variant, succeeds exactly when the field is a JSON string, and returns it. Otherwise it fails with a data error naming the key. |
| Models.ReadU64 | src/twitter_api/models.rs:134-140 | The u64 reader succeeds exactly when the field is an integer in [0, 2^64), and returns it. Otherwise it fails with a data error naming the key. |
| Models.DecodeUser | src/twitter_api/models.rs:94-102 | A user decodes exactly when `id` is a u64, `screen_name`, `name` and `description` are strings and `protected` is a boolean. The decoded fields equal those JSON values. A failure is the data error on this object naming the first field, in the order `id`, `screen_name`, `name`, `description`, `protected`, that is missing or mistyped. |
| Models.DeserializeUser | src/twitter_api/models.rs:89-92 | A user from text: a parse failure is a parse error, and otherwise the text decodes exactly when it parses to a user object. Text that parses to something else fails with the data error naming the parsed object's first bad field. |
| Models.DecodeStatusType | src/twitter_api/models.rs:49-52 | The recipient step: with a string `recipient`, it succeeds exactly when that text decodes as a user, giving a direct message to that user. Without one, the status is public. |
| Models.InReplyTo | src/twitter_api/models.rs:67-71 | The reply id is present exactly when the field is an integer in (0, 2^64), and it equals that integer. |
| Models.DecodeStatus | src/twitter_api/models.rs:48-85 | Every decoded status: it is a direct message iff the value has a string `recipient`; a direct message has no retweeted or quoted status; the reply id is `in_reply_to_status_id` when that is a positive u64, and absent otherwise; `id`, `user` and `text` come from the fields of those names, and `user` decodes as a user. A failing recipient step fails the whole status with its error, and a decoded status's type is what that step gave. So a string `recipient` that does not decode fails the status. A status decodes exactly when it is an object whose recipient step passes, whose present embedded statuses decode (for a public status), whose `id` is a u64, whose `user` is a user object and whose `text` is a string. Other fields make no difference. |
| Models.DeserializeStatus | src/twitter_api/models.rs:42-46 | A status from text succeeds exactly when the text parses and the parsed tree decodes as a status. A parse failure is a parse error, and any other failure is the decode error of the parsed tree. A status read from text comes from a parsed tree: it is a direct message iff that tree has a string `recipient`, a direct message embeds nothing, and the reply id, `id`, `user` and `text` come from the tree's fields. |
| Models.DecodeAll | src/twitter_api/models.rs:34-37 | Collecting per-element decodes: success iff every element decodes, with the results in element order. Otherwise the error is that of the first element that fails. |
| Models.DecodeTimeline | src/twitter_api/models.rs:33-39 | An array decodes element by element, in order, failing with the first failing element's error if any element fails. Any other value decodes as a one-element list, or fails with that value's decode error. |
| Models.DeserializeTimeline | src/twitter_api/models.rs:31-40 | A timeline from text succeeds exactly when the text parses and every status the document holds decodes. The statuses are the array's elements, or the document itself when it is not an array. It then gives one status per item, in order. Otherwise the error is the parse error or that of the first item that fails. |
| Models.EmbeddedErrors | src/twitter_api/models.rs:53-66 | For a public status, a failing retweeted status fails the whole decode with its own error. So does a failing quoted status once the retweeted one, if present, decodes. |
| Models.RequiredFieldErrors | src/twitter_api/models.rs:73-84 | Once the recipient and embedded steps pass, the error is the data error naming `id`, then `user`, then `text`, whichever fails first. A `user` present but not a user object gives the error of its first bad field. |
| Models.MissingRequiredFieldFails | src/twitter_api/models.rs:73-84 | Decoding fails when `id` is not a u64, `user` is missing or not a user object, or `text` is not a string. |
| Models.EmbeddedStatusesOfPublicStatus | src/twitter_api/models.rs:53-66 | For a public status, an embedded retweeted or quoted status is present iff its field is, and it equals the nested decode. A nested failure fails the whole status. |
| Models.DirectMessageIgnoresEmbedded | src/twitter_api/models.rs:53-66 | For a direct message, changing `retweeted_status` and `quoted_status` changes neither whether it decodes nor what it decodes to. |
| Models.ReplyIdFiltered | src/twitter_api/models.rs:67-71 | A decoded status has no reply id exactly when the field is missing, is not a u64, or is zero. |
| StatusEncoding.UserRoundTrip | src/twitter_api/models.rs:94-102 | Every user, written as an object with the five fields, is a user object that decodes back to the same user. |
| StatusEncoding.StatusRoundTrip | src/twitter_api/models.rs:48-85 | Decoding is a left inverse of encoding on well-formed statuses: every well-formed status, embedded ones included, decodes back from its encoding. A direct message's recipient is carried as text that the parser reads back. |
| StatusEncoding.DecodedIsWellFormed | src/twitter_api/models.rs:48-85 | Every decoded status is well formed at every depth: the reply id is positive if present, and a direct message embeds nothing. So the round trip covers every status the decoder can produce. |
| Config.Lookup | src/config.rs:269 | A key lookup returns a profile carrying that key. |
| Config.LookupSpec | src/config.rs:269 | Lookup finds nothing exactly when no profile carries the key, and what it finds is a listed profile. |
| Config.LookupFindsFirst | src/config.rs:269 | Lookup returns the earliest profile in list order with the key, whatever follows it. |
| DeriveChain.WalkFrom | src/config.rs:127-140 | A budgeted walk along `derive` links starts at the given profile and takes at most the budget in steps. It stops at a profile without `derive` (root), or at a `derive` naming a key no profile has (missing). Otherwise the budget ran out with a link still to follow. |
| DeriveChain.WalkIsLinked | src/config.rs:127-140 | Each visited profile is the one its predecessor's `derive` names, and every visited profile after the first is listed. |
| DeriveChain.ClosedSetDiverges | src/config.rs:127-140 | From inside a set of profiles whose links all lead back into the set, the walk never stops, whatever the budget. |
| DeriveChain.BudgetSuffices | src/config.rs:127-140 | A walk from a listed profile that is still going after `|profiles|` steps goes on for every budget. Here the source loops forever. |
| DeriveChain.StopIsStable | src/config.rs:127-140 | A walk that stops within a budget stops the same way, with the same chain, under every larger budget. |
| DeriveChain.EndingIsTheEnd | src/config.rs:127-140 | If a walk from a listed profile stops under any budget, it stops as the walk with budget `|profiles|` does. |
| Resolve.FirstSomeIsEarliest | src/config.rs:284-290 | The reference value of an attribute is the one from the earliest profile on the chain that has it. It is absent exactly when no profile on the chain has it. |
| Resolve.FirstSomeExtend | src/config.rs:284-290 | Extending the chain by one profile fills an attribute only if it is still missing ("or"). |
| Resolve.Fill | src/config.rs:284-290 | One loop step sets each attribute to the accumulated value, or to the profile's own value when that is missing. `derive` is left as it was. |
| Resolve.ResolutionChain | src/config.rs:266-296 | The profiles the resolve loop visits: empty iff the key is unknown, otherwise starting at the profile found under the key, linked by `derive`, and ending where no further profile is found. |
| Resolve.ResolveTerminatesExactly | src/config.rs:267-296 | The resolve loop fails to return exactly when the walk from the profile found under the key diverges. |
| Resolve.Resolve | src/config.rs:260-298 | When the loop returns, it returns `Ok` with `derive` unset. Every attribute is the first present value along the chain. A value the profile found under `self.key` has is never overwritten. The source never reads the attributes of `self`. After a successful validation, the profile found under a listed profile's key is that profile (`Validate.ValidatedChainsEnd`). |
| Validate.FirstDuplicate | src/config.rs:111-123 | No duplicate exactly when the keys are pairwise distinct. Otherwise the result is the key of the earliest profile whose key an earlier profile already has. |
| Validate.IndexKeys | src/config.rs:109-123 | The first loop succeeds exactly when the keys are distinct. Its map then holds every key, sending each to the profile lookup finds. Otherwise it reports the first duplicate key. |
| Validate.DuplicateFound | src/config.rs:118-121 | A key already in the map marks the first duplicate of the whole list. |
| Validate.IndexGrows | src/config.rs:114-117 | Entering a profile with a new key keeps the map faithful to the longer prefix. |
| Validate.ChainVerdict | src/config.rs:127-140 | One profile's chain is rooted iff its walk ends at a root. It is reported as a cycle, starting at that profile's key, iff its walk never ends. A dangling chain reports the key of the last profile the walk reached as the holder, and that profile's `derive` as the missing key, which no profile has. |
| Validate.CheckDerives | src/config.rs:126-141 | The second loop passes iff every chain, from the given position on, ends at a root. Otherwise it reports the first chain, in list order, that does not. |
| Validate.CompilePatterns | src/config.rs:145-150 | A profile's patterns compile into one instance per pattern, in order, exactly when all of them compile. Otherwise the error names the first pattern that does not compile. |
| Validate.CompileProfiles | src/config.rs:144-151 | The third loop passes iff every pattern compiles, and then every profile's instances match its patterns one for one. On failure, the profiles before the failing one are compiled and it and later ones are untouched. Nothing but the instances changes. |
| Validate.ValidateAsWritten | src/config.rs:105-154 | The source's validation: it hangs only with distinct keys and some chain that does not end at a root. When it returns, it passes iff keys are distinct, every chain is rooted and every pattern compiles. Duplicate keys are always reported, with the first duplicate. An unknown derive names the holder and missing key found by the first chain, in list order, that does not end at a root. A pattern failure comes from the first profile with a pattern that does not compile, and the profiles before it keep their compiled patterns. A failure other than a pattern failure leaves the configuration as it was. `Validate.ValidateMatchesSource` relates it to the corrected validation. |
| Validate.Validate | src/config.rs:105-154 | Validation passes iff keys are distinct, every chain is rooted and every pattern compiles. It reports duplicate keys before derive errors before pattern errors. Only `matchInstances` changes, and a failure other than a pattern failure leaves the configuration as it was. A derive error, unknown key or cycle, is what the first chain in list order that does not end at a root finds. A pattern failure comes from the first profile with a pattern that does not compile, and the profiles before it keep their compiled patterns. |
| Validate.ValidateMatchesSource | src/config.rs:125-141 | Where the source's validation returns, the corrected one returns the same result. The source fails to return exactly when the corrected one reports a cycle, and then some profile's walk diverges after every earlier chain ended at a root. |
| Validate.DanglingDeriveRejected | src/config.rs:131-136 | A chain reaching a `derive` that names an unknown key makes validation fail. |
| Validate.ValidatedChainsEnd | src/config.rs:266-296 | After a successful validation every listed profile's chain ends at a root, its key looks up that profile, and resolving it returns. |
| Validate.MutualDeriveHangs | src/config.rs:126-141 | Two profiles deriving from each other: the source's validation never returns, while the corrected one reports the cycle. |
| Validate.SampleConfigValidates | src/config.rs:85-91 | The sample configuration passes validation unchanged, in both versions, provided its one pattern compiles. |

## Left out

- The account check `check_user_auth` at the start of `validate`: it is a network call. Validation is modelled from the point after it.
- `SaveAndLoad`, `ApiKey`, `Secrets` and `AuthInfoConfigurer`: YAML file I/O and OAuth wrappers.
- The regular-expression engine: compilation is the abstract predicate `valid`. A compiled instance is represented by its pattern text, and matching is not modelled.
- Text-level JSON parsing and rendering: they are the parameters `parse` and `render`. `ParseError` carries the unparsed text in place of serde's error value.
- Error texts: errors are structured values rather than formatted messages. The source's unknown-derive message puts the holding profile's key where the missing key should be and the reverse. `UnknownDerive(holder, missing)` records the two the right way round.
- `TwitterDataError` carries the JSON object it was read from, not its rendered text.
- JSON numbers with a fraction or exponent are `Float(real)`. No integer reader accepts them, just as `as_u64` does not.
- `src/init.rs`, `src/main.rs`, `src/errors.rs`, `src/twitter_api.rs` and the other API files: interactive prompts, process entry, error enums and HTTP calls.
- `ResolvedProfile::apply`: an empty stub.
- Trigger matching and the poll loop: not present in the modelled source.
- The derive check looks keys up in the map the first loop built. The resolve loop scans the list in order. The model uses list-order `Lookup` for both. `Validate.IndexKeys` proves that the two agree whenever the derive check runs, since keys are then distinct.
- Resolve.Resolve: states its result only when the loop returns, which is the `ResolveTerminates` precondition. `Resolve.ResolveTerminatesExactly` shows that outside it the source loops forever.
- The error variant `ConfigurationError` and the `?` propagation into `Error` are collapsed into one `ValidationError` datatype, one variant per kind of message.

## Findings

| source | as written | input that shows it | evidently intended | confidence | as-written member | corrected member |
|---|---|---|---|---|---|---|
| src/config.rs:126-141 | The derive check follows `derive` links until a profile has none, without remembering where it has been. A cyclic chain makes `validate` loop forever. The same holds for `resolve` at src/config.rs:267-296. | Profiles `a` with `derive: b` and `b` with `derive: a` | Reject the configuration with a cycle error | high, not executed | Validate.ValidateAsWritten, Validate.MutualDeriveHangs | Validate.Validate, Validate.ValidatedChainsEnd |

=== FILE: config.dfy ===
/** The configuration records of src/config.rs: authentication, trigger flags,
    the ordered list of profiles, and the resolved attribute set. The regular
    expression engine is abstract: a compiled pattern is represented by the
    pattern text it was compiled from. */
module Config {
  import opened Wrappers
  import opened Ints

  datatype AuthInfo = AuthInfo(userId: u64, token: string, secret: string)

  /** Which kinds of timeline entries may trigger a profile change. */
  datatype Property = Property(
    triggerRetweet: bool,
    triggerQuote: bool,
    triggerReply: bool,
    triggerDirectMessages: bool)

  /** A compiled regular expression; only its source pattern is modelled. */
  datatype Regex = Regex(pattern: string)

  /** One named profile. An absent attribute is inherited along `derive`.
      `matchInstances` is not part of the document: validation fills it with the
      compiled `matches`. */
  datatype Profile = Profile(
    key: string,
    matches: seq<string>,
    triggers: seq<string>,
    derive: Option<string>,
    name: Option<string>,
    url: Option<string>,
    location: Option<string>,
    description: Option<string>,
    image: Option<string>,
    banner: Option<string>,
    intro: Option<string>,
    matchInstances: seq<Regex>)
  {
    /** The attribute `a` of this profile. */
    function Attr(a: Attribute): Option<string> {
      match a
      case Name => name
      case Url => url
      case Location => location
      case Description => description
      case Image => image
      case Banner => banner
      case Intro => intro
    }
  }

  datatype Config = Config(authInfo: AuthInfo, property: Property, profiles: seq<Profile>)

  /** The seven inheritable profile attributes. */
  datatype Attribute = Name | Url | Location | Description | Image | Banner | Intro

  /** The result of walking a derive chain: every attribute filled by the first
      profile on the chain that has it. */
  datatype ResolvedProfile = ResolvedProfile(
    derive: Option<string>,
    name: Option<string>,
    url: Option<string>,
    location: Option<string>,
    description: Option<string>,
    image: Option<string>,
    banner: Option<string>,
    intro: Option<string>)
  {
    function Attr(a: Attribute): Option<string> {
      match a
      case Name => name
      case Url => url
      case Location => location
      case Description => description
      case Image => image
      case Banner => banner
      case Intro => intro
    }
  }

  /** The errors validation reports. `CyclicDerive` is never produced by the
      source, whose derive check does not return on a cycle. */
  datatype ValidationError =
    | DuplicateKey(key: string)
    | UnknownDerive(holder: string, missing: string)
    | InvalidRegex(pattern: string)
    | CyclicDerive(start: string)

  /** The first profile in list order whose key is `key`. */
  function Lookup(profiles: seq<Profile>, key: string): (r: Option<Profile>)
    ensures r.Some? ==> r.value.key == key
  {
    if |profiles| == 0 then None
    else if profiles[0].key == key then Some(profiles[0])
    else Lookup(profiles[1..], key)
  }

  /** Lookup finds nothing exactly when no profile carries the key, and what it
      finds is one of the listed profiles. */
  lemma {:induction false} LookupSpec(profiles: seq<Profile>, key: string)
    ensures Lookup(profiles, key).None? <==> forall i :: 0 <= i < |profiles| ==> profiles[i].key != key
    ensures Lookup(profiles, key).Some? ==> Lookup(profiles, key).value in profiles
  {
    if |profiles| > 0 && profiles[0].key != key {
      LookupSpec(profiles[1..], key);
      if Lookup(profiles, key).None? {
        forall i | 0 <= i < |profiles|
          ensures profiles[i].key != key
        {
          if i > 0 {
            assert profiles[i] == profiles[1..][i - 1];
          }
        }
      }
    }
  }

  /** Lookup returns the earliest profile carrying the key, whatever follows it. */
  lemma {:induction false} LookupFindsFirst(profiles: seq<Profile>, i: int)
    requires 0 <= i < |profiles|
    requires forall j :: 0 <= j < i ==> profiles[j].key != profiles[i].key
    ensures Lookup(profiles, profiles[i].key) == Some(profiles[i])
  {
    if i > 0 {
      LookupFindsFirst(profiles[1..], i - 1);
    }
  }

  /** The keys the profiles carry. */
  function KeySet(profiles: seq<Profile>): set<string> {
    set i | 0 <= i < |profiles| :: profiles[i].key
  }

  /** A key found in a prefix of the list is found there in the whole list too. */
  lemma {:induction false} LookupInPrefix(profiles: seq<Profile>, n: int, key: string)
    requires 0 <= n <= |profiles|
    requires Lookup(profiles[..n], key).Some?
    ensures Lookup(profiles, key) == Lookup(profiles[..n], key)
  {
    if profiles[0].key != key {
      assert profiles[..n][1..] == profiles[1..][..n - 1];
      LookupInPrefix(profiles[1..], n - 1, key);
    }
  }

  /** No two profiles share a key. */
  predicate DistinctKeys(profiles: seq<Profile>) {
    forall i, j :: 0 <= i < j < |profiles| ==> profiles[i].key != profiles[j].key
  }

  /** With distinct keys, every listed profile is what its key looks up. */
  lemma LookupOwnKey(profiles: seq<Profile>, i: int)
    requires DistinctKeys(profiles)
    requires 0 <= i < |profiles|
    ensures Lookup(profiles, profiles[i].key) == Some(profiles[i])
  {
    LookupFindsFirst(profiles, i);
  }

  // ----- The sample configuration written on first run -----

  const SamplePattern: string := ".*change.*sample"

  /** `Property::create_sample`: no entry kind triggers. */
  function SampleProperty(): Property {
    Property(false, false, false, false)
  }

  /** `Profile::create_sample`: a root profile with every attribute set and its one
      pattern already compiled. */
  function SampleProfile(): Profile {
    Profile(
      "sample",
      [SamplePattern],
      ["sample"],
      None,
      Some("sample profile"),
      Some("example.com"),
      Some("sample location"),
      Some("this is sample profile."),
      Some("~/profile_image.png"),
      Some("~/banner_image.png"),
      Some("Hello, I'm a example profile!"),
      [Regex(SamplePattern)])
  }

  /** `Config::new_example`. */
  function NewExample(authInfo: AuthInfo): Config {
    Config(authInfo, SampleProperty(), [SampleProfile()])
  }
}

=== FILE: derive_chain.dfy ===
/** Walking a profile's `derive` links, as both the derive check of
    `Config::validate` and `Profile::resolve` do (src/config.rs). Neither loop in
    the source detects a cycle, so on a cyclic chain neither returns. The walk is
    therefore modelled with a step budget, and the lemma `BudgetSuffices` shows that
    a budget of one step per profile decides the matter: a walk still going after
    that many steps goes on for every budget, which is exactly the source looping
    forever. */
module DeriveChain {
  import opened Wrappers
  import opened Config

  /** The profile one `derive` link away, if the link exists and names a key
      some profile has. */
  function Next(profiles: seq<Profile>, p: Profile): Option<Profile> {
    if p.derive.Some? then Lookup(profiles, p.derive.value) else None
  }

  /** Each profile of `chain` derives from the next one. */
  predicate Linked(profiles: seq<Profile>, chain: seq<Profile>) {
    forall i :: 0 <= i < |chain| - 1 ==> Next(profiles, chain[i]) == Some(chain[i + 1])
  }

  /** Why a walk stopped. */
  datatype Stop =
    | AtRoot               // the last profile has no `derive`
    | AtMissing(key: string) // the last profile derives from a key no profile has
    | OutOfSteps           // the step budget ran out with a link still to follow

  /** The profiles a walk visited, starting profile first, and why it stopped. */
  datatype Walk = Walk(chain: seq<Profile>, stop: Stop)

  /** Follows `derive` links from `p`, taking at most `steps` of them. */
  function WalkFrom(profiles: seq<Profile>, p: Profile, steps: nat): (w: Walk)
    ensures 1 <= |w.chain| <= steps + 1 && w.chain[0] == p
    ensures w.stop.AtRoot? <==> w.chain[|w.chain| - 1].derive.None?
    ensures w.stop.AtMissing? ==>
      && w.chain[|w.chain| - 1].derive == Some(w.stop.key)
      && Lookup(profiles, w.stop.key).None?
    ensures w.stop.OutOfSteps? ==>
      |w.chain| == steps + 1 && Next(profiles, w.chain[steps]).Some?
    decreases steps
  {
    match p.derive
    case None => Walk([p], AtRoot)
    case Some(k) =>
      match Lookup(profiles, k)
      case None => Walk([p], AtMissing(k))
      case Some(q) =>
        if steps == 0 then Walk([p], OutOfSteps)
        else
          var rest := WalkFrom(profiles, q, steps - 1);
          Walk([p] + rest.chain, rest.stop)
  }

  /** Each profile a walk visits derives from the previous one, and every one
      after the first is a listed profile. */
  lemma {:induction false} WalkIsLinked(profiles: seq<Profile>, p: Profile, steps: nat)
    ensures Linked(profiles, WalkFrom(profiles, p, steps).chain)
    ensures forall i :: 1 <= i < |WalkFrom(profiles, p, steps).chain| ==>
      WalkFrom(profiles, p, steps).chain[i] in profiles
    decreases steps
  {
    var chain := WalkFrom(profiles, p, steps).chain;
    if |chain| > 1 {
      var q := Next(profiles, p).value;
      var rest := WalkFrom(profiles, q, steps - 1).chain;
      LookupSpec(profiles, p.derive.value);
      WalkIsLinked(profiles, q, steps - 1);
      assert chain == [p] + rest;
      forall i | 0 <= i < |chain| - 1
        ensures Next(profiles, chain[i]) == Some(chain[i + 1])
      {
        if i > 0 {
          assert chain[i] == rest[i - 1] && chain[i + 1] == rest[i];
        }
      }
      forall i | 1 <= i < |chain|
        ensures chain[i] in profiles
      {
        if i > 1 {
          assert chain[i] == rest[i - 1];
        }
      }
    }
  }

  /** The walk from `p` never stops, whatever the budget: the source's loop does
      not return. */
  ghost predicate Diverges(profiles: seq<Profile>, p: Profile) {
    forall steps: nat :: WalkFrom(profiles, p, steps).stop.OutOfSteps?
  }

  /** Walking a linked chain from its first profile, after `k` steps, continues as
      the walk from its `k`-th profile with `k` fewer steps. */
  lemma {:induction false} WalkShift(profiles: seq<Profile>, chain: seq<Profile>, k: nat, steps: nat)
    requires Linked(profiles, chain)
    requires k < |chain| && k <= steps
    ensures WalkFrom(profiles, chain[0], steps).stop == WalkFrom(profiles, chain[k], steps - k).stop
    decreases k
  {
    if k > 0 {
      var tail := chain[1..];
      assert Next(profiles, chain[0]) == Some(chain[1]);
      WalkStep(profiles, chain[0], steps);
      forall i | 0 <= i < |tail| - 1
        ensures Next(profiles, tail[i]) == Some(tail[i + 1])
      {
        assert Next(profiles, chain[i + 1]) == Some(chain[i + 2]);
      }
      assert tail[0] == chain[1] && tail[k - 1] == chain[k];
      WalkShift(profiles, tail, k - 1, steps - 1);
    }
  }

  /** One step of a walk: with a link to follow and budget left, the walk goes on
      from the next profile. */
  lemma WalkStep(profiles: seq<Profile>, p: Profile, steps: nat)
    requires Next(profiles, p).Some? && steps > 0
    ensures WalkFrom(profiles, p, steps).stop == WalkFrom(profiles, Next(profiles, p).value, steps - 1).stop
  {
  }

  /** Every profile of `closed` has a link, and it leads back into `closed`. */
  ghost predicate Closed(profiles: seq<Profile>, closed: set<Profile>) {
    forall q {:trigger Next(profiles, q)} ::
      q in closed ==> Next(profiles, q).Some? && Next(profiles, q).value in closed
  }

  /** From inside a set of profiles that every link leads back into, the walk
      never stops. */
  lemma {:induction false} ClosedSetDiverges(profiles: seq<Profile>, closed: set<Profile>, p: Profile, steps: nat)
    requires p in closed
    requires Closed(profiles, closed)
    ensures WalkFrom(profiles, p, steps).stop.OutOfSteps?
    decreases steps
  {
    var q := Next(profiles, p).value;
    if steps > 0 {
      WalkStep(profiles, p, steps);
      ClosedSetDiverges(profiles, closed, q, steps - 1);
    }
  }

  /** A sequence whose elements come from a pool smaller than itself repeats one. */
  lemma {:induction false} Pigeonhole<T>(s: seq<T>, pool: set<T>)
    requires forall i :: 0 <= i < |s| ==> s[i] in pool
    requires |s| > |pool|
    ensures exists i, j :: 0 <= i < j < |s| && s[i] == s[j]
  {
    if s[0] in s[1..] {
      var j :| 1 <= j < |s| && s[j] == s[0];
      assert s[0] == s[j];
    } else {
      forall i | 0 <= i < |s[1..]|
        ensures s[1..][i] in pool - {s[0]}
      {
        assert s[1..][i] == s[i + 1];
      }
      Pigeonhole(s[1..], pool - {s[0]});
      var i, j :| 0 <= i < j < |s[1..]| && s[1..][i] == s[1..][j];
      assert s[i + 1] == s[j + 1];
    }
  }

  /** A list has no more distinct elements than entries. */
  lemma {:induction false} ElementsBound<T>(s: seq<T>)
    ensures |set x | x in s| <= |s|
  {
    if |s| > 0 {
      var init := s[..|s| - 1];
      ElementsBound(init);
      assert (set x | x in s) == (set x | x in init) + {s[|s| - 1]};
    }
  }

  /** The profiles between two visits of the same profile form a closed set. */
  lemma CycleIsClosed(profiles: seq<Profile>, chain: seq<Profile>, i: nat, j: nat)
    requires Linked(profiles, chain)
    requires i < j < |chain| && chain[i] == chain[j]
    ensures Closed(profiles, set k | i <= k < j :: chain[k])
  {
    var closed := set k | i <= k < j :: chain[k];
    forall q | q in closed
      ensures Next(profiles, q).Some? && Next(profiles, q).value in closed
    {
      var k :| i <= k < j && chain[k] == q;
      assert Next(profiles, chain[k]) == Some(chain[k + 1]);
      if k + 1 < j {
        assert chain[k + 1] in closed;
      } else {
        assert chain[i] in closed;
      }
    }
  }

  /** A linked chain that visits some profile twice is walked forever from its
      start. */
  lemma RepeatDiverges(profiles: seq<Profile>, chain: seq<Profile>, i: nat, j: nat, steps: nat)
    requires Linked(profiles, chain)
    requires i < j < |chain| && chain[i] == chain[j]
    ensures WalkFrom(profiles, chain[0], steps).stop.OutOfSteps?
  {
    if steps < i {
      WalkShift(profiles, chain, steps, steps);
      assert Next(profiles, chain[steps]) == Some(chain[steps + 1]);
    } else {
      WalkShift(profiles, chain, i, steps);
      CycleIsClosed(profiles, chain, i, j);
      assert chain[i] in set k | i <= k < j :: chain[k];
      ClosedSetDiverges(profiles, set k | i <= k < j :: chain[k], chain[i], steps - i);
    }
  }

  /** A budget of one step per profile decides termination: a walk from a listed
      profile that is still going after `|profiles|` steps never stops. */
  lemma BudgetSuffices(profiles: seq<Profile>, p: Profile)
    requires p in profiles
    requires WalkFrom(profiles, p, |profiles|).stop.OutOfSteps?
    ensures Diverges(profiles, p)
  {
    var w := WalkFrom(profiles, p, |profiles|);
    var chain := w.chain;
    WalkIsLinked(profiles, p, |profiles|);
    var pool := set x | x in profiles;
    ElementsBound(profiles);
    assert |chain| == |profiles| + 1;
    forall k | 0 <= k < |chain|
      ensures chain[k] in pool
    {
      if k == 0 {
        assert chain[0] == p;
      } else {
        assert chain[k] in profiles;
      }
    }
    Pigeonhole(chain, pool);
    var i: nat, j: nat :| i < j < |chain| && chain[i] == chain[j];
    forall steps: nat
      ensures WalkFrom(profiles, p, steps).stop.OutOfSteps?
    {
      RepeatDiverges(profiles, chain, i, j, steps);
    }
  }

  /** A walk that stops within its budget stops the same way under any larger
      budget. */
  lemma {:induction false} StopIsStable(profiles: seq<Profile>, p: Profile, steps: nat, more: nat)
    requires !WalkFrom(profiles, p, steps).stop.OutOfSteps?
    requires steps <= more
    ensures WalkFrom(profiles, p, more) == WalkFrom(profiles, p, steps)
    decreases steps
  {
    var next := Next(profiles, p);
    if next.Some? {
      var a := WalkFrom(profiles, next.value, steps - 1);
      var b := WalkFrom(profiles, next.value, more - 1);
      assert WalkFrom(profiles, p, steps) == Walk([p] + a.chain, a.stop);
      StopIsStable(profiles, next.value, steps - 1, more - 1);
      assert WalkFrom(profiles, p, more) == Walk([p] + b.chain, b.stop);
    }
  }

  /** How the walk from a listed profile ends, with the budget that decides it. */
  function Ending(profiles: seq<Profile>, p: Profile): Stop {
    WalkFrom(profiles, p, |profiles|).stop
  }

  /** If a walk from a listed profile stops at all, under any budget, it stops the
      way `Ending` reports. */
  lemma EndingIsTheEnd(profiles: seq<Profile>, p: Profile, steps: nat)
    requires p in profiles
    requires !WalkFrom(profiles, p, steps).stop.OutOfSteps?
    ensures Ending(profiles, p) == WalkFrom(profiles, p, steps).stop
  {
    var n := |profiles|;
    if WalkFrom(profiles, p, n).stop.OutOfSteps? {
      BudgetSuffices(profiles, p);
      assert false;
    } else if steps <= n {
      StopIsStable(profiles, p, steps, n);
    } else {
      StopIsStable(profiles, p, n, steps);
    }
  }
}

=== FILE: ints.dfy ===
/** Rust's unsigned 64-bit integer, used for tweet and user identifiers. */
module Ints {

  const U64_LIMIT: int := 0x1_0000_0000_0000_0000

  type u64 = n: int | 0 <= n < U64_LIMIT
}

=== FILE: json.dfy ===
/** An already-parsed JSON document, shaped like `serde_json::Value`, together with
    the accessors the decoders use on it (`get`, indexing, `as_bool`, `as_str`,
    `as_u64`). Text-level parsing is not part of this model. */
module Json {
  import opened Wrappers
  import opened Ints

  /** A JSON value. Integer literals are `Num`; literals with a fraction or an
      exponent are `Float`, which no integer accessor accepts. Objects are maps, so
      a key occurs at most once, as in serde_json's default object map. */
  datatype Value =
    | Null
    | Bool(b: bool)
    | Num(n: int)
    | Float(r: real)
    | Str(s: string)
    | Arr(items: seq<Value>)
    | Obj(fields: map<string, Value>)

  /** `Value::get`: the named field of an object; nothing for a missing key or a
      value that is not an object. */
  function Get(v: Value, key: string): Option<Value> {
    if v.Obj? && key in v.fields then Some(v.fields[key]) else None
  }

  /** `value[key]`: like `Get`, with `Null` standing in for an absent field. */
  function Index(v: Value, key: string): Value {
    match Get(v, key)
    case Some(x) => x
    case None => Null
  }

  function AsBool(v: Value): Option<bool> {
    if v.Bool? then Some(v.b) else None
  }

  function AsStr(v: Value): Option<string> {
    if v.Str? then Some(v.s) else None
  }

  /** `as_u64`: only a non-negative integer literal below 2^64 is a u64. */
  function AsU64(v: Value): Option<u64> {
    if v.Num? && 0 <= v.n < U64_LIMIT then Some(v.n as u64) else None
  }
}

=== FILE: models.dfy ===
/** Decoding of timeline statuses and users from a JSON tree
    (src/twitter_api/models.rs). Every decoder is a total function returning a
    `Result`; a missing or mistyped required field is a `DataError` naming the
    field and carrying the object it was read from. */
module Models {
  import opened Wrappers
  import opened Ints
  import opened Json

  datatype User = User(
    id: u64,
    screenName: string,
    name: string,
    description: string,
    isProtected: bool)

  /** A public timeline entry, or a direct message addressed to a user. */
  datatype StatusType = PublicStatus | DirectMessageTo(recipient: User)

  datatype Status = Status(
    statusType: StatusType,
    id: u64,
    user: User,
    text: string,
    inReplyToStatusId: Option<u64>,
    retweetedStatus: Option<Status>,
    quotedStatus: Option<Status>)

  datatype DecodeError =
    | DataError(key: string, context: Value)  // a required field is missing or mistyped
    | ParseError(text: string)                // a string is not JSON text

  /** The JSON text parser (`serde_json::from_str`), left abstract: `None` is a
      parse error. */
  type Parser = string -> Option<Value>

  // ----- The typed field readers (the `ReadValue` impls) -----

  /** Reads a boolean field. */
  function ReadBool(v: Value, key: string): (r: Result<bool, DecodeError>)
    ensures r.Success? <==> v.Obj? && key in v.fields && v.fields[key].Bool?
    ensures r.Success? ==> v.fields[key] == Bool(r.value)
    ensures r.Failure? ==> r.error == DataError(key, v)
  {
    match AsBool(Index(v, key))
    case Some(b) => Success(b)
    case None => Failure(DataError(key, v))
  }

  /** Reads a string field; the borrowed (`&str`) and owned (`String`) readers of
      the source yield the same characters, so one reader models both. */
  function ReadString(v: Value, key: string): (r: Result<string, DecodeError>)
    ensures r.Success? <==> v.Obj? && key in v.fields && v.fields[key].Str?
    ensures r.Success? ==> v.fields[key] == Str(r.value)
    ensures r.Failure? ==> r.error == DataError(key, v)
  {
    match AsStr(Index(v, key))
    case Some(s) => Success(s)
    case None => Failure(DataError(key, v))
  }

  /** Reads an unsigned 64-bit field: an integer literal in [0, 2^64). */
  function ReadU64(v: Value, key: string): (r: Result<u64, DecodeError>)
    ensures r.Success? <==>
      v.Obj? && key in v.fields && v.fields[key].Num? && 0 <= v.fields[key].n < U64_LIMIT
    ensures r.Success? ==> v.fields[key] == Num(r.value)
    ensures r.Failure? ==> r.error == DataError(key, v)
  {
    match AsU64(Index(v, key))
    case Some(n) => Success(n)
    case None => Failure(DataError(key, v))
  }

  // ----- Users -----

  /** The five fields a user object must carry, each with its JSON type. */
  predicate IsUserObject(v: Value) {
    && v.Obj?
    && "id" in v.fields && v.fields["id"].Num? && 0 <= v.fields["id"].n < U64_LIMIT
    && "screen_name" in v.fields && v.fields["screen_name"].Str?
    && "name" in v.fields && v.fields["name"].Str?
    && "description" in v.fields && v.fields["description"].Str?
    && "protected" in v.fields && v.fields["protected"].Bool?
  }

  /** The fields of a user object, in the order the decoder reads them. */
  const UserFields: seq<string> := ["id", "screen_name", "name", "description", "protected"]

  /** The user object `v` has field `k` with the JSON type the decoder wants:
      a u64 `id`, a boolean `protected`, a string otherwise. */
  predicate UserFieldOk(v: Value, k: string) {
    && v.Obj? && k in v.fields
    && if k == "id" then v.fields[k].Num? && 0 <= v.fields[k].n < U64_LIMIT
       else if k == "protected" then v.fields[k].Bool?
       else v.fields[k].Str?
  }

  /** `e` is the error of reading the user object `v` field by field: the data
      error naming the first field, in reading order, that is missing or
      mistyped. */
  predicate FirstBadUserField(v: Value, e: DecodeError) {
    exists i :: 0 <= i < |UserFields| && e == DataError(UserFields[i], v)
      && !UserFieldOk(v, UserFields[i])
      && forall j :: 0 <= j < i ==> UserFieldOk(v, UserFields[j])
  }

  /** `User::deserialize_json_value`: reads `id`, `screen_name`, `name`,
      `description` and `protected`, in that order, failing on the first one that
      is missing or mistyped. */
  function DecodeUser(v: Value): (r: Result<User, DecodeError>)
    ensures r.Success? <==> IsUserObject(v)
    ensures r.Success? ==>
      && v.fields["id"] == Num(r.value.id)
      && v.fields["screen_name"] == Str(r.value.screenName)
      && v.fields["name"] == Str(r.value.name)
      && v.fields["description"] == Str(r.value.description)
      && v.fields["protected"] == Bool(r.value.isProtected)
    ensures r.Failure? ==> FirstBadUserField(v, r.error)
  {
    assert UserFields[0] == "id" && UserFields[1] == "screen_name" && UserFields[2] == "name"
      && UserFields[3] == "description" && UserFields[4] == "protected";
    var id :- ReadU64(v, "id");
    var screenName :- ReadString(v, "screen_name");
    var name :- ReadString(v, "name");
    var description :- ReadString(v, "description");
    var isProtected :- ReadBool(v, "protected");
    Success(User(id, screenName, name, description, isProtected))
  }

  /** `User::deserialize_json`: parses the text, then decodes the user. */
  function DeserializeUser(parse: Parser, text: string): (r: Result<User, DecodeError>)
    ensures r.Success? <==> parse(text).Some? && IsUserObject(parse(text).value)
    ensures parse(text).None? ==> r == Failure(ParseError(text))
    ensures parse(text).Some? && r.Failure? ==> FirstBadUserField(parse(text).value, r.error)
  {
    match parse(text)
    case None => Failure(ParseError(text))
    case Some(v) => DecodeUser(v)
  }

  // ----- Statuses -----

  /** The value carries a string-typed `recipient`, the mark of a direct message. */
  predicate HasStringRecipient(v: Value) {
    v.Obj? && "recipient" in v.fields && v.fields["recipient"].Str?
  }

  /** The first step of status decoding: a string `recipient` makes the entry a
      direct message to the user that string describes. */
  function DecodeStatusType(parse: Parser, v: Value): (r: Result<StatusType, DecodeError>)
    ensures r.Success? ==> (r.value.DirectMessageTo? <==> HasStringRecipient(v))
    ensures r.Success? && r.value.DirectMessageTo? ==>
      DeserializeUser(parse, v.fields["recipient"].s) == Success(r.value.recipient)
    ensures !HasStringRecipient(v) ==> r == Success(PublicStatus)
    ensures HasStringRecipient(v) ==>
      (r.Success? <==> DeserializeUser(parse, v.fields["recipient"].s).Success?)
  {
    match Get(v, "recipient")
    case Some(Str(text)) =>
      var u :- DeserializeUser(parse, text);
      Success(DirectMessageTo(u))
    case _ => Success(PublicStatus)
  }

  /** `in_reply_to_status_id`, kept only when it is a u64 other than zero. */
  function InReplyTo(v: Value): (r: Option<u64>)
    ensures r.Some? <==>
      v.Obj? && "in_reply_to_status_id" in v.fields
      && v.fields["in_reply_to_status_id"].Num?
      && 0 < v.fields["in_reply_to_status_id"].n < U64_LIMIT
    ensures r.Some? ==> v.fields["in_reply_to_status_id"] == Num(r.value)
  {
    match Get(v, "in_reply_to_status_id")
    case None => None
    case Some(x) =>
      match AsU64(x)
      case None => None
      case Some(n) => if n > 0 then Some(n) else None
  }

  /** A retweeted or quoted status: never looked at for a direct message; for a
      public status, decoded when the field is present, and its failure is the
      whole decode's failure. */
  function DecodeEmbedded(parse: Parser, v: Value, key: string, statusType: StatusType)
    : Result<Option<Status>, DecodeError>
    decreases v, 0
  {
    if statusType.DirectMessageTo? then Success(None)
    else
      match Get(v, key)
      case None => Success(None)
      case Some(x) =>
        var s :- DecodeStatus(parse, x);
        Success(Some(s))
  }

  /** The field `key`, when present, decodes as a status. */
  predicate EmbeddedDecode(parse: Parser, v: Value, key: string)
    requires v.Obj?
    decreases v, 0
  {
    key in v.fields ==> DecodeStatus(parse, v.fields[key]).Success?
  }

  /** `Status::deserialize_json_value`. The steps run in the source's order:
      recipient, retweeted status, quoted status, reply id, then the required
      `id`, `user` and `text`. */
  function DecodeStatus(parse: Parser, v: Value): (r: Result<Status, DecodeError>)
    ensures r.Success? ==>
      (r.value.statusType.DirectMessageTo? <==> HasStringRecipient(v))
    ensures r.Success? && r.value.statusType.DirectMessageTo? ==>
      r.value.retweetedStatus.None? && r.value.quotedStatus.None?
    ensures r.Success? ==> r.value.inReplyToStatusId == InReplyTo(v)
    ensures r.Success? ==>
      && v.Obj?
      && "id" in v.fields && v.fields["id"] == Num(r.value.id)
      && "user" in v.fields && DecodeUser(v.fields["user"]) == Success(r.value.user)
      && "text" in v.fields && v.fields["text"] == Str(r.value.text)
    ensures DecodeStatusType(parse, v).Failure? ==> r == Failure(DecodeStatusType(parse, v).error)
    ensures r.Success? ==> DecodeStatusType(parse, v) == Success(r.value.statusType)
    ensures r.Success? <==>
      && v.Obj?
      && DecodeStatusType(parse, v).Success?
      && (!HasStringRecipient(v) ==> EmbeddedDecode(parse, v, "retweeted_status") && EmbeddedDecode(parse, v, "quoted_status"))
      && UserFieldOk(v, "id")
      && "user" in v.fields && IsUserObject(v.fields["user"])
      && "text" in v.fields && v.fields["text"].Str?
    decreases v, 1
  {
    var statusType :- DecodeStatusType(parse, v);
    var retweeted :- DecodeEmbedded(parse, v, "retweeted_status", statusType);
    var quoted :- DecodeEmbedded(parse, v, "quoted_status", statusType);
    var inReply := InReplyTo(v);
    var id :- ReadU64(v, "id");
    var user :- match Get(v, "user")
      case None => Failure(DataError("user", v))
      case Some(u) => DecodeUser(u);
    var text :- ReadString(v, "text");
    Success(Status(statusType, id, user, text, inReply, retweeted, quoted))
  }

  /** `Status::deserialize_json`: parses the text, then decodes one status. A
      status read from text has the same properties as one decoded from a tree:
      the recipient marks a direct message, a direct message embeds nothing, and
      `id`, `user`, `text` and the reply id come from the parsed fields. */
  function DeserializeStatus(parse: Parser, text: string): (r: Result<Status, DecodeError>)
    ensures parse(text).None? ==> r == Failure(ParseError(text))
    ensures r.Success? <==> parse(text).Some? && DecodeStatus(parse, parse(text).value).Success?
    ensures parse(text).Some? && r.Failure? ==> DecodeStatus(parse, parse(text).value) == Failure(r.error)
    ensures r.Success? ==>
      var v := parse(text).value;
      && (r.value.statusType.DirectMessageTo? <==> HasStringRecipient(v))
      && (r.value.statusType.DirectMessageTo? ==> r.value.retweetedStatus.None? && r.value.quotedStatus.None?)
      && r.value.inReplyToStatusId == InReplyTo(v)
      && v.Obj? && "id" in v.fields && v.fields["id"] == Num(r.value.id)
      && "user" in v.fields && DecodeUser(v.fields["user"]) == Success(r.value.user)
      && "text" in v.fields && v.fields["text"] == Str(r.value.text)
  {
    match parse(text)
    case None => Failure(ParseError(text))
    case Some(v) => DecodeStatus(parse, v)
  }

  // ----- Timelines -----

  /** Decodes every element in order, stopping at the first failure (collecting
      an iterator of results into a `Result<Vec<_>, _>`). */
  function DecodeAll(parse: Parser, items: seq<Value>): (r: Result<seq<Status>, DecodeError>)
    ensures r.Success? <==> forall i :: 0 <= i < |items| ==> DecodeStatus(parse, items[i]).Success?
    ensures r.Success? ==>
      && |r.value| == |items|
      && forall i :: 0 <= i < |items| ==> DecodeStatus(parse, items[i]) == Success(r.value[i])
    ensures r.Failure? ==>
      exists i :: 0 <= i < |items| && DecodeStatus(parse, items[i]) == Failure(r.error)
        && forall j :: 0 <= j < i ==> DecodeStatus(parse, items[j]).Success?
  {
    if |items| == 0 then Success([])
    else
      var first :- DecodeStatus(parse, items[0]);
      var rest :- DecodeAll(parse, items[1..]);
      Success([first] + rest)
  }

  /** `Status::deserialize_timeline` on a parsed document: an array is a list of
      statuses; any other value is a single status. */
  function DecodeTimeline(parse: Parser, v: Value): (r: Result<seq<Status>, DecodeError>)
    ensures !v.Arr? ==> (r.Success? <==> DecodeStatus(parse, v).Success?)
    ensures !v.Arr? && r.Success? ==> r.value == [DecodeStatus(parse, v).value]
    ensures !v.Arr? && r.Failure? ==> DecodeStatus(parse, v) == Failure(r.error)
    ensures v.Arr? ==>
      (r.Success? <==> forall i :: 0 <= i < |v.items| ==> DecodeStatus(parse, v.items[i]).Success?)
    ensures v.Arr? && r.Success? ==>
      && |r.value| == |v.items|
      && forall i :: 0 <= i < |v.items| ==> DecodeStatus(parse, v.items[i]) == Success(r.value[i])
    ensures v.Arr? && r.Failure? ==>
      exists i :: 0 <= i < |v.items| && DecodeStatus(parse, v.items[i]) == Failure(r.error)
        && forall j :: 0 <= j < i ==> DecodeStatus(parse, v.items[j]).Success?
  {
    if v.Arr? then DecodeAll(parse, v.items)
    else
      match DecodeStatus(parse, v)
      case Success(s) => Success([s])
      case Failure(e) => Failure(e)
  }

  /** The statuses a timeline document holds: the elements of an array, or the
      document itself when it is not an array. */
  function TimelineItems(v: Value): seq<Value> {
    if v.Arr? then v.items else [v]
  }

  /** `Status::deserialize_timeline` from text: it succeeds exactly when the text
      parses and every status the document holds decodes, and then gives one
      status per item, in order; otherwise the error is the parse error or that
      of the first item that fails. */
  function DeserializeTimeline(parse: Parser, text: string): (r: Result<seq<Status>, DecodeError>)
    ensures parse(text).None? ==> r == Failure(ParseError(text))
    ensures r.Success? <==>
      && parse(text).Some?
      && forall i :: 0 <= i < |TimelineItems(parse(text).value)| ==>
           DecodeStatus(parse, TimelineItems(parse(text).value)[i]).Success?
    ensures r.Success? ==>
      var items := TimelineItems(parse(text).value);
      && |r.value| == |items|
      && forall i :: 0 <= i < |items| ==> DecodeStatus(parse, items[i]) == Success(r.value[i])
    ensures parse(text).Some? && r.Failure? ==>
      var items := TimelineItems(parse(text).value);
      exists i :: 0 <= i < |items| && DecodeStatus(parse, items[i]) == Failure(r.error)
        && forall j :: 0 <= j < i ==> DecodeStatus(parse, items[j]).Success?
  {
    match parse(text)
    case None => Failure(ParseError(text))
    case Some(v) =>
      assert if v.Arr? then TimelineItems(v) == v.items else TimelineItems(v)[0] == v;
      DecodeTimeline(parse, v)
  }

  // ----- Properties of status decoding -----

  /** A required field that is missing or mistyped fails the decode: `id` must be
      a u64, `user` must be present and decode as a user, `text` must be a
      string. */
  lemma MissingRequiredFieldFails(parse: Parser, v: Value)
    requires
      || !(v.Obj? && "id" in v.fields && v.fields["id"].Num? && 0 <= v.fields["id"].n < U64_LIMIT)
      || !(v.Obj? && "user" in v.fields && IsUserObject(v.fields["user"]))
      || !(v.Obj? && "text" in v.fields && v.fields["text"].Str?)
    ensures DecodeStatus(parse, v).Failure?
  {
  }

  /** For a public status, an embedded retweeted or quoted status is present
      exactly when its field is, and equals the nested decode; a failing nested
      decode fails the whole status. */
  lemma EmbeddedStatusesOfPublicStatus(parse: Parser, v: Value, key: string)
    requires key == "retweeted_status" || key == "quoted_status"
    requires !HasStringRecipient(v)
    ensures v.Obj? && key in v.fields && DecodeStatus(parse, v.fields[key]).Failure? ==>
      DecodeStatus(parse, v).Failure?
    ensures DecodeStatus(parse, v).Success? ==>
      var embedded := if key == "retweeted_status" then DecodeStatus(parse, v).value.retweetedStatus
                      else DecodeStatus(parse, v).value.quotedStatus;
      && (embedded.Some? <==> key in v.fields)
      && (embedded.Some? ==> DecodeStatus(parse, v.fields[key]) == Success(embedded.value))
  {
    assert DecodeStatusType(parse, v) == Success(PublicStatus);
    if key == "retweeted_status" {
      assert key != "quoted_status";
    }
  }

  /** The steps before the required fields pass: the recipient decodes, and for a
      public status so do the embedded statuses that are present. */
  predicate EarlyStepsPass(parse: Parser, v: Value) {
    && DecodeStatusType(parse, v).Success?
    && (v.Obj? && !HasStringRecipient(v) ==>
          EmbeddedDecode(parse, v, "retweeted_status") && EmbeddedDecode(parse, v, "quoted_status"))
  }

  /** A failing embedded status of a public status fails the whole decode with
      its own error, the retweeted status before the quoted one. */
  lemma EmbeddedErrors(parse: Parser, v: Value)
    ensures (&& DecodeStatusType(parse, v) == Success(PublicStatus) && v.Obj? && "retweeted_status" in v.fields
             && DecodeStatus(parse, v.fields["retweeted_status"]).Failure?) ==>
      DecodeStatus(parse, v) == Failure(DecodeStatus(parse, v.fields["retweeted_status"]).error)
    ensures (&& DecodeStatusType(parse, v) == Success(PublicStatus) && v.Obj?
             && EmbeddedDecode(parse, v, "retweeted_status") && "quoted_status" in v.fields
             && DecodeStatus(parse, v.fields["quoted_status"]).Failure?) ==>
      DecodeStatus(parse, v) == Failure(DecodeStatus(parse, v.fields["quoted_status"]).error)
  {
  }

  /** With the earlier steps passing, the error is a data error naming `id`,
      `user` or `text`, or, for a `user` that is not a user object, the error of
      its first bad field. */
  lemma RequiredFieldErrors(parse: Parser, v: Value)
    ensures EarlyStepsPass(parse, v) && !UserFieldOk(v, "id") ==>
      DecodeStatus(parse, v) == Failure(DataError("id", v))
    ensures EarlyStepsPass(parse, v) && UserFieldOk(v, "id") && "user" !in v.fields ==>
      DecodeStatus(parse, v) == Failure(DataError("user", v))
    ensures (&& EarlyStepsPass(parse, v) && UserFieldOk(v, "id") && "user" in v.fields
             && !IsUserObject(v.fields["user"])) ==>
      DecodeStatus(parse, v).Failure? && FirstBadUserField(v.fields["user"], DecodeStatus(parse, v).error)
    ensures (&& EarlyStepsPass(parse, v) && UserFieldOk(v, "id") && "user" in v.fields
             && IsUserObject(v.fields["user"]) && !("text" in v.fields && v.fields["text"].Str?)) ==>
      DecodeStatus(parse, v) == Failure(DataError("text", v))
  {
  }

  /** A direct message is decoded without looking at its embedded statuses: two
      direct messages that differ only in those fields either both fail or both
      decode to the same status. */
  lemma DirectMessageIgnoresEmbedded(parse: Parser, v: Value, x: Value, y: Value)
    requires HasStringRecipient(v)
    ensures var w := Obj(v.fields["retweeted_status" := x]["quoted_status" := y]);
      && (DecodeStatus(parse, w).Success? <==> DecodeStatus(parse, v).Success?)
      && (DecodeStatus(parse, v).Success? ==> DecodeStatus(parse, w) == DecodeStatus(parse, v))
  {
    var w := Obj(v.fields["retweeted_status" := x]["quoted_status" := y]);
    assert Get(w, "recipient") == Get(v, "recipient");
    var st := DecodeStatusType(parse, v);
    assert DecodeStatusType(parse, w) == st;
    if st.Success? {
      assert DecodeEmbedded(parse, w, "retweeted_status", st.value) == Success(None);
      assert DecodeEmbedded(parse, w, "quoted_status", st.value) == Success(None);
      assert DecodeEmbedded(parse, v, "retweeted_status", st.value) == Success(None);
      assert DecodeEmbedded(parse, v, "quoted_status", st.value) == Success(None);
      assert InReplyTo(w) == InReplyTo(v);
      assert ReadU64(w, "id").Success? == ReadU64(v, "id").Success?;
      assert ReadU64(w, "id").Success? ==> ReadU64(w, "id") == ReadU64(v, "id");
      assert Get(w, "user") == Get(v, "user");
      assert ReadString(w, "text").Success? == ReadString(v, "text").Success?;
      assert ReadString(w, "text").Success? ==> ReadString(w, "text") == ReadString(v, "text");
    }
  }

  /** The reply id is filtered to non-zero u64 values: zero, a missing field and a
      field that is not a u64 all decode as no reply. */
  lemma ReplyIdFiltered(parse: Parser, v: Value)
    requires DecodeStatus(parse, v).Success?
    ensures DecodeStatus(parse, v).value.inReplyToStatusId.None? <==>
      !("in_reply_to_status_id" in v.fields)
      || AsU64(v.fields["in_reply_to_status_id"]) in {None, Some(0)}
  {
    assert v.Obj?;
    NoReplyId(v);
  }

  /** The reply-id reader alone, on an object. */
  lemma NoReplyId(v: Value)
    requires v.Obj?
    ensures InReplyTo(v).None? <==>
      !("in_reply_to_status_id" in v.fields)
      || AsU64(v.fields["in_reply_to_status_id"]) in {None, Some(0)}
  {
  }
}

=== FILE: models_encode.dfy ===
/** The shape of every decoded status, and an encoder from statuses back to JSON
    whose output the decoders of src/twitter_api/models.rs read back unchanged:
    decoding is a left inverse of encoding on every well-formed status. */
module StatusEncoding {
  import opened Wrappers
  import opened Ints
  import opened Json
  import opened Models

  /** JSON text rendering (`serde_json::to_string`), left abstract; a direct
      message carries its recipient as JSON text. */
  type Renderer = Value -> string

  /** What every decoded status satisfies: a reply id is never zero, a direct
      message embeds no retweeted or quoted status, and the same holds of every
      embedded status. */
  predicate WellFormed(s: Status)
    decreases s
  {
    && (s.inReplyToStatusId.None? || s.inReplyToStatusId.value > 0)
    && (s.statusType.DirectMessageTo? ==> s.retweetedStatus.None? && s.quotedStatus.None?)
    && (s.retweetedStatus.Some? ==> WellFormed(s.retweetedStatus.value))
    && (s.quotedStatus.Some? ==> WellFormed(s.quotedStatus.value))
  }

  /** A user as the object the user decoder reads. */
  function EncodeUser(u: User): Value {
    Obj(map[
      "id" := Num(u.id),
      "screen_name" := Str(u.screenName),
      "name" := Str(u.name),
      "description" := Str(u.description),
      "protected" := Bool(u.isProtected)])
  }

  /** Round trip for users: an encoded user is a user object that decodes back to
      the same user. */
  lemma UserRoundTrip(u: User)
    ensures IsUserObject(EncodeUser(u))
    ensures DecodeUser(EncodeUser(u)) == Success(u)
  {
  }

  /** The fields of an encoded status; optional parts appear only when present. */
  function EncodeStatus(render: Renderer, s: Status): (r: Value)
    decreases s
  {
    var typed :=
      if s.statusType.DirectMessageTo?
      then map["recipient" := Str(render(EncodeUser(s.statusType.recipient)))]
      else map[];
    var replied :=
      if s.inReplyToStatusId.Some?
      then typed["in_reply_to_status_id" := Num(s.inReplyToStatusId.value)]
      else typed;
    var retweeted :=
      if s.retweetedStatus.Some?
      then replied["retweeted_status" := EncodeStatus(render, s.retweetedStatus.value)]
      else replied;
    var quoted :=
      if s.quotedStatus.Some?
      then retweeted["quoted_status" := EncodeStatus(render, s.quotedStatus.value)]
      else retweeted;
    Obj(quoted["id" := Num(s.id)]["user" := EncodeUser(s.user)]["text" := Str(s.text)])
  }

  /** The parser reads back every rendered user. */
  ghost predicate ParsesRenderedUsers(parse: Parser, render: Renderer) {
    forall u: User :: parse(render(EncodeUser(u))) == Some(EncodeUser(u))
  }

  /** Where the required parts of a status sit in its encoding. */
  lemma EncodedRequiredFields(render: Renderer, s: Status)
    ensures var f := EncodeStatus(render, s).fields;
      && "id" in f && f["id"] == Num(s.id)
      && "user" in f && f["user"] == EncodeUser(s.user)
      && "text" in f && f["text"] == Str(s.text)
  {
    assert "id" != "user" && "id" != "text" && "user" != "text";
  }

  /** The direct-message recipient sits under `recipient`, and only there. */
  lemma EncodedRecipient(render: Renderer, s: Status)
    ensures var f := EncodeStatus(render, s).fields;
      && ("recipient" in f <==> s.statusType.DirectMessageTo?)
      && (s.statusType.DirectMessageTo? ==>
            f["recipient"] == Str(render(EncodeUser(s.statusType.recipient))))
  {
    // No other key of the encoding has this length, so the updates that
    // write the other fields leave this one alone.
    assert |"recipient"| == 9;
  }

  /** The reply id sits under `in_reply_to_status_id` when there is one. */
  lemma EncodedReplyId(render: Renderer, s: Status)
    ensures var f := EncodeStatus(render, s).fields;
      && ("in_reply_to_status_id" in f <==> s.inReplyToStatusId.Some?)
      && (s.inReplyToStatusId.Some? ==> f["in_reply_to_status_id"] == Num(s.inReplyToStatusId.value))
  {
    // No other key of the encoding has this length, so the updates that
    // write the other fields leave this one alone.
    assert |"in_reply_to_status_id"| == 21;
  }

  /** The retweeted status sits, encoded, under `retweeted_status`. */
  lemma EncodedRetweet(render: Renderer, s: Status)
    ensures var f := EncodeStatus(render, s).fields;
      && ("retweeted_status" in f <==> s.retweetedStatus.Some?)
      && (s.retweetedStatus.Some? ==>
            f["retweeted_status"] == EncodeStatus(render, s.retweetedStatus.value))
  {
    // No other key of the encoding has this length, so the updates that
    // write the other fields leave this one alone.
    assert |"retweeted_status"| == 16;
  }

  /** The quoted status sits, encoded, under `quoted_status`. */
  lemma EncodedQuote(render: Renderer, s: Status)
    ensures var f := EncodeStatus(render, s).fields;
      && ("quoted_status" in f <==> s.quotedStatus.Some?)
      && (s.quotedStatus.Some? ==> f["quoted_status"] == EncodeStatus(render, s.quotedStatus.value))
  {
    // No other key of the encoding has this length, so the updates that
    // write the other fields leave this one alone.
    assert |"quoted_status"| == 13;
  }

  /** Status decoding assembles the results of its steps. */
  lemma DecodeStatusSteps(parse: Parser, v: Value, s: Status)
    requires DecodeStatusType(parse, v) == Success(s.statusType)
    requires DecodeEmbedded(parse, v, "retweeted_status", s.statusType) == Success(s.retweetedStatus)
    requires DecodeEmbedded(parse, v, "quoted_status", s.statusType) == Success(s.quotedStatus)
    requires InReplyTo(v) == s.inReplyToStatusId
    requires ReadU64(v, "id") == Success(s.id)
    requires Get(v, "user") == Some(EncodeUser(s.user))
    requires ReadString(v, "text") == Success(s.text)
    ensures DecodeStatus(parse, v) == Success(s)
  {
    UserRoundTrip(s.user);
  }

  /** The first decoding step reads back the kind of an encoded status. */
  lemma StatusTypeRoundTrip(parse: Parser, render: Renderer, s: Status)
    requires ParsesRenderedUsers(parse, render)
    ensures DecodeStatusType(parse, EncodeStatus(render, s)) == Success(s.statusType)
  {
    EncodedRecipient(render, s);
    if s.statusType.DirectMessageTo? {
      var u := s.statusType.recipient;
      assert parse(render(EncodeUser(u))) == Some(EncodeUser(u));
      UserRoundTrip(u);
    }
  }

  /** An embedded status of an encoded status is read back, given that its own
      encoding is. */
  lemma EmbeddedRoundTrip(parse: Parser, render: Renderer, s: Status, key: string, e: Option<Status>)
    requires || (key == "retweeted_status" && e == s.retweetedStatus)
             || (key == "quoted_status" && e == s.quotedStatus)
    requires WellFormed(s)
    requires e.Some? ==> DecodeStatus(parse, EncodeStatus(render, e.value)) == Success(e.value)
    ensures DecodeEmbedded(parse, EncodeStatus(render, s), key, s.statusType) == Success(e)
  {
    if key == "retweeted_status" {
      EncodedRetweet(render, s);
    } else {
      EncodedQuote(render, s);
    }
  }

  /** Round trip: decoding an encoded well-formed status gives it back. */
  lemma {:induction false} StatusRoundTrip(parse: Parser, render: Renderer, s: Status)
    requires WellFormed(s)
    requires ParsesRenderedUsers(parse, render)
    ensures DecodeStatus(parse, EncodeStatus(render, s)) == Success(s)
    decreases s
  {
    var v := EncodeStatus(render, s);
    StatusTypeRoundTrip(parse, render, s);
    if s.retweetedStatus.Some? {
      StatusRoundTrip(parse, render, s.retweetedStatus.value);
    }
    EmbeddedRoundTrip(parse, render, s, "retweeted_status", s.retweetedStatus);
    if s.quotedStatus.Some? {
      StatusRoundTrip(parse, render, s.quotedStatus.value);
    }
    EmbeddedRoundTrip(parse, render, s, "quoted_status", s.quotedStatus);
    EncodedReplyId(render, s);
    EncodedRequiredFields(render, s);
    DecodeStatusSteps(parse, v, s);
  }

  /** Every status the decoder produces is well formed, embedded ones included. */
  lemma {:induction false} DecodedIsWellFormed(parse: Parser, v: Value)
    requires DecodeStatus(parse, v).Success?
    ensures WellFormed(DecodeStatus(parse, v).value)
    decreases v
  {
    var s := DecodeStatus(parse, v).value;
    if s.retweetedStatus.Some? {
      EmbeddedStatusesOfPublicStatus(parse, v, "retweeted_status");
      DecodedIsWellFormed(parse, v.fields["retweeted_status"]);
    }
    if s.quotedStatus.Some? {
      EmbeddedStatusesOfPublicStatus(parse, v, "quoted_status");
      DecodedIsWellFormed(parse, v.fields["quoted_status"]);
    }
  }
}

=== FILE: resolve.dfy ===
/** `Profile::resolve` (src/config.rs): fills every attribute with the first value
    found walking the derive chain from the profile's key ("first writer wins").
    The walk looks each key up in list order, ends at a profile without `derive`
    or at a key no profile has, and never fails. */
module Resolve {
  import opened Wrappers
  import opened Config
  import opened DeriveChain

  /** The first present value of attribute `a` along `chain`, if any. */
  function FirstSome(chain: seq<Profile>, a: Attribute): Option<string> {
    if |chain| == 0 then None
    else if chain[0].Attr(a).Some? then chain[0].Attr(a)
    else FirstSome(chain[1..], a)
  }

  /** `FirstSome` finds the earliest profile on the chain that has the attribute,
      and finds nothing exactly when no profile has it. */
  lemma {:induction false} FirstSomeIsEarliest(chain: seq<Profile>, a: Attribute)
    ensures FirstSome(chain, a).None? <==> forall i :: 0 <= i < |chain| ==> chain[i].Attr(a).None?
    ensures FirstSome(chain, a).Some? ==>
      exists i :: 0 <= i < |chain| && chain[i].Attr(a) == FirstSome(chain, a)
        && forall j :: 0 <= j < i ==> chain[j].Attr(a).None?
  {
    if |chain| > 0 && chain[0].Attr(a).None? {
      FirstSomeIsEarliest(chain[1..], a);
      if FirstSome(chain, a).Some? {
        var i :| 0 <= i < |chain[1..]| && chain[1..][i].Attr(a) == FirstSome(chain[1..], a)
          && forall j :: 0 <= j < i ==> chain[1..][j].Attr(a).None?;
        assert chain[i + 1].Attr(a) == FirstSome(chain, a);
        forall j | 0 <= j < i + 1
          ensures chain[j].Attr(a).None?
        {
          if j > 0 {
            assert chain[j] == chain[1..][j - 1];
          }
        }
      } else {
        forall i | 0 <= i < |chain|
          ensures chain[i].Attr(a).None?
        {
          if i > 0 {
            assert chain[i] == chain[1..][i - 1];
          }
        }
      }
    }
  }

  /** Extending the chain can only fill an attribute that is still missing. */
  lemma {:induction false} FirstSomeExtend(chain: seq<Profile>, p: Profile, a: Attribute)
    ensures FirstSome(chain + [p], a) == FirstSome(chain, a).Or(p.Attr(a))
  {
    if |chain| > 0 {
      assert (chain + [p])[1..] == chain[1..] + [p];
      FirstSomeExtend(chain[1..], p, a);
    }
  }

  /** The source's resolve loop returns: the profile found under `key` (if any)
      starts a walk that reaches a root or a missing key. */
  predicate ResolveTerminates(profiles: seq<Profile>, key: string) {
    match Lookup(profiles, key)
    case None => true
    case Some(p) => !Ending(profiles, p).OutOfSteps?
  }

  /** Outside `ResolveTerminates` the source loops forever. */
  lemma ResolveTerminatesExactly(profiles: seq<Profile>, key: string)
    requires Lookup(profiles, key).Some?
    ensures !ResolveTerminates(profiles, key) <==> Diverges(profiles, Lookup(profiles, key).value)
  {
    var p := Lookup(profiles, key).value;
    if !ResolveTerminates(profiles, key) {
      LookupSpec(profiles, key);
      BudgetSuffices(profiles, p);
    }
  }

  /** The profiles the resolve loop visits, in order: the one found under `key`,
      then each one its `derive` names, up to a profile without `derive` or a
      `derive` naming a key no profile has. */
  function ResolutionChain(profiles: seq<Profile>, key: string): (c: seq<Profile>)
    requires ResolveTerminates(profiles, key)
    ensures |c| == 0 <==> Lookup(profiles, key).None?
    ensures |c| > 0 ==> Lookup(profiles, key) == Some(c[0])
    ensures Linked(profiles, c)
    ensures |c| > 0 ==> Next(profiles, c[|c| - 1]).None?
  {
    match Lookup(profiles, key)
    case None => []
    case Some(p) =>
      WalkIsLinked(profiles, p, |profiles|);
      WalkFrom(profiles, p, |profiles|).chain
  }

  /** One step of the walk: every attribute still empty takes the profile's value. */
  function Fill(resolved: ResolvedProfile, p: Profile): (r: ResolvedProfile)
    ensures forall a :: r.Attr(a) == resolved.Attr(a).Or(p.Attr(a))
    ensures r.derive == resolved.derive
  {
    resolved.(
      name := resolved.name.Or(p.name),
      url := resolved.url.Or(p.url),
      location := resolved.location.Or(p.location),
      description := resolved.description.Or(p.description),
      image := resolved.image.Or(p.image),
      banner := resolved.banner.Or(p.banner),
      intro := resolved.intro.Or(p.intro))
  }

  /** Resolves the attributes of `self` against `profiles`. The loop mirrors the
      source: look the current key up, fill what is still empty, move on to the
      key named by `derive`. */
  method Resolve(profiles: seq<Profile>, self: Profile) returns (r: Result<ResolvedProfile, ValidationError>)
    requires ResolveTerminates(profiles, self.key)
    ensures r.Success? && r.value.derive.None?
    ensures forall a :: r.value.Attr(a) == FirstSome(ResolutionChain(profiles, self.key), a)
    ensures forall a :: Lookup(profiles, self.key).Some? && Lookup(profiles, self.key).value.Attr(a).Some? ==>
      r.value.Attr(a) == Lookup(profiles, self.key).value.Attr(a)
  {
    ghost var chain := ResolutionChain(profiles, self.key);
    ghost var i := 0;
    var resolved := ResolvedProfile(None, None, None, None, None, None, None, None);
    var key: Option<string> := Some(self.key);
    while true
      invariant 0 <= i <= |chain|
      invariant i < |chain| ==> key.Some? && Lookup(profiles, key.value) == Some(chain[i])
      invariant i == |chain| ==> key.None? || Lookup(profiles, key.value).None?
      invariant forall a :: resolved.Attr(a) == FirstSome(chain[..i], a)
      invariant resolved.derive.None?
      decreases |chain| - i
    {
      var derived := if key.Some? then Lookup(profiles, key.value) else None;
      if derived.None? {
        break;
      }
      var p := derived.value;
      assert chain[..i + 1] == chain[..i] + [p];
      forall a
        ensures FirstSome(chain[..i + 1], a) == resolved.Attr(a).Or(p.Attr(a))
      {
        FirstSomeExtend(chain[..i], p, a);
      }
      resolved := Fill(resolved, p);
      key := p.derive;
      if i + 1 < |chain| {
        assert Next(profiles, chain[i]) == Some(chain[i + 1]);
      }
      i := i + 1;
    }
    assert chain[..i] == chain;
    r := Success(resolved);
  }
}

=== FILE: validate.dfy ===
/** `Config::validate` (src/config.rs), from the point where the account check has
    passed. Three checks run in order and the first failure is reported:
      1. keys are pairwise distinct (a map from key to profile is built);
      2. every `derive` chain ends at a profile without `derive`;
      3. every `matches` pattern compiles, and the compiled patterns are stored in
         `matchInstances`, profile by profile.
    The regular expression compiler is a parameter `valid` that says which
    patterns compile. The source's check 2 does not return on a cyclic chain;
    `ValidateAsWritten` models that as `Hangs`, and `Validate` reports
    `CyclicDerive` instead. */
module Validate {
  import opened Wrappers
  import opened Config
  import opened DeriveChain
  import Resolve

  // ----- Check 1: distinct keys -----

  /** The key of the earliest profile whose key an earlier profile already has. */
  function FirstDuplicate(profiles: seq<Profile>): (r: Option<string>)
    ensures r.None? <==> DistinctKeys(profiles)
    ensures r.Some? ==>
      exists j :: 0 <= j < |profiles| && r.value == profiles[j].key
        && profiles[j].key in KeySet(profiles[..j]) && DistinctKeys(profiles[..j])
    decreases |profiles|
  {
    if |profiles| == 0 then None
    else
      var init := profiles[..|profiles| - 1];
      var last := profiles[|profiles| - 1];
      match FirstDuplicate(init)
      case Some(k) =>
        assert forall j :: 0 <= j < |init| ==> init[..j] == profiles[..j];
        Some(k)
      case None => if last.key in KeySet(init) then Some(last.key) else None
  }

  /** `index` is what the first loop has built from the first `n` profiles. */
  predicate Indexes(profiles: seq<Profile>, n: int, index: map<string, Profile>)
    requires 0 <= n <= |profiles|
  {
    && DistinctKeys(profiles[..n])
    && index.Keys == KeySet(profiles[..n])
    && forall k :: k in index ==> Lookup(profiles[..n], k) == Some(index[k])
  }

  /** The source's first loop: profiles are entered into a map under their keys;
      a key already present is a `DuplicateKey` error. On success the map sends
      each key to the profile `Lookup` finds for it. */
  method IndexKeys(profiles: seq<Profile>) returns (r: Result<map<string, Profile>, ValidationError>)
    ensures r.Success? <==> DistinctKeys(profiles)
    ensures r.Success? ==>
      && r.value.Keys == KeySet(profiles)
      && forall k :: k in r.value ==> Lookup(profiles, k) == Some(r.value[k])
    ensures r.Failure? ==> r.error == DuplicateKey(FirstDuplicate(profiles).value)
  {
    var index: map<string, Profile> := map[];
    for i := 0 to |profiles|
      invariant Indexes(profiles, i, index)
    {
      var profile := profiles[i];
      if profile.key in index {
        DuplicateFound(profiles, i, index);
        return Failure(DuplicateKey(profile.key));
      }
      IndexGrows(profiles, i, index);
      index := index[profile.key := profile];
    }
    assert profiles[..|profiles|] == profiles;
    return Success(index);
  }

  /** A profile whose key is already indexed is the first duplicate of the list. */
  lemma DuplicateFound(profiles: seq<Profile>, i: int, index: map<string, Profile>)
    requires 0 <= i < |profiles| && Indexes(profiles, i, index)
    requires profiles[i].key in index
    ensures !DistinctKeys(profiles)
    ensures FirstDuplicate(profiles) == Some(profiles[i].key)
  {
    DuplicateClosesPrefix(profiles, i);
    FirstDuplicatePrefix(profiles, i + 1);
    assert !DistinctKeys(profiles) by {
      var init := profiles[..i];
      assert profiles[i].key in KeySet(init);
      var j :| 0 <= j < i && init[j].key == profiles[i].key;
      assert profiles[j].key == profiles[i].key;
    }
  }

  /** A key repeated right after a duplicate-free prefix is the prefix's first
      duplicate. */
  lemma DuplicateClosesPrefix(profiles: seq<Profile>, i: int)
    requires 0 <= i < |profiles|
    requires DistinctKeys(profiles[..i]) && profiles[i].key in KeySet(profiles[..i])
    ensures FirstDuplicate(profiles[..i + 1]) == Some(profiles[i].key)
  {
    var prefix := profiles[..i + 1];
    assert prefix[..|prefix| - 1] == profiles[..i];
    assert prefix[|prefix| - 1] == profiles[i];
  }

  /** Entering a profile whose key is new keeps the index faithful to the longer
      prefix. */
  lemma IndexGrows(profiles: seq<Profile>, i: int, index: map<string, Profile>)
    requires 0 <= i < |profiles| && Indexes(profiles, i, index)
    requires profiles[i].key !in index
    ensures Indexes(profiles, i + 1, index[profiles[i].key := profiles[i]])
  {
    var prefix := profiles[..i + 1];
    assert prefix[..i] == profiles[..i];
    assert prefix == profiles[..i] + [profiles[i]];
    assert KeySet(prefix) == KeySet(profiles[..i]) + {profiles[i].key};
    forall k | k in index
      ensures Lookup(prefix, k) == Some(index[k])
    {
      LookupInPrefix(prefix, i, k);
    }
    forall j | 0 <= j < i
      ensures prefix[j].key != prefix[i].key
    {
      assert prefix[j].key in KeySet(profiles[..i]);
    }
    LookupFindsFirst(prefix, i);
  }

  /** A duplicate found in a prefix is the first duplicate of the whole list. */
  lemma {:induction false} FirstDuplicatePrefix(profiles: seq<Profile>, n: int)
    requires 0 <= n <= |profiles|
    requires FirstDuplicate(profiles[..n]).Some?
    ensures FirstDuplicate(profiles) == FirstDuplicate(profiles[..n])
    decreases |profiles| - n
  {
    if n < |profiles| {
      var init := profiles[..|profiles| - 1];
      assert init[..n] == profiles[..n];
      FirstDuplicatePrefix(init, n);
    } else {
      assert profiles[..n] == profiles;
    }
  }

  // ----- Check 2: every derive chain ends -----

  /** What check 2 finds. */
  datatype DeriveVerdict =
    | AllRooted                                 // every chain ends at a profile without `derive`
    | Dangling(holder: string, missing: string) // a chain reaches a `derive` naming an unknown key
    | Cycle(start: string)                      // the chain from this profile never ends

  /** What walking the chain from one profile finds. A dangling chain names the
      last profile it reached, whose `derive` is the key no profile has. */
  function ChainVerdict(profiles: seq<Profile>, p: Profile): (v: DeriveVerdict)
    ensures v.AllRooted? <==> Ending(profiles, p).AtRoot?
    ensures v.Cycle? <==> Ending(profiles, p).OutOfSteps?
    ensures v.Cycle? ==> v.start == p.key
    ensures v.Dangling? ==> Ending(profiles, p) == AtMissing(v.missing)
    ensures v.Dangling? ==>
      var chain := WalkFrom(profiles, p, |profiles|).chain;
      && v.holder == chain[|chain| - 1].key
      && chain[|chain| - 1].derive == Some(v.missing)
      && Lookup(profiles, v.missing).None?
  {
    var w := WalkFrom(profiles, p, |profiles|);
    match w.stop
    case AtRoot => AllRooted
    case AtMissing(k) => Dangling(w.chain[|w.chain| - 1].key, k)
    case OutOfSteps => Cycle(p.key)
  }

  /** Every chain from a listed profile ends at a profile without `derive`. */
  predicate AllChainsRooted(profiles: seq<Profile>) {
    forall j :: 0 <= j < |profiles| ==> Ending(profiles, profiles[j]).AtRoot?
  }

  /** The source's second loop over `profiles[from..]`: the first chain, in list
      order, that does not end at a root decides the verdict. */
  function CheckDerives(profiles: seq<Profile>, from: nat): (v: DeriveVerdict)
    requires from <= |profiles|
    ensures v.AllRooted? <==>
      forall j :: from <= j < |profiles| ==> Ending(profiles, profiles[j]).AtRoot?
    ensures !v.AllRooted? ==>
      exists j :: from <= j < |profiles| && v == ChainVerdict(profiles, profiles[j])
        && forall k :: from <= k < j ==> Ending(profiles, profiles[k]).AtRoot?
    decreases |profiles| - from
  {
    if from == |profiles| then AllRooted
    else
      var v := ChainVerdict(profiles, profiles[from]);
      if v.AllRooted? then CheckDerives(profiles, from + 1)
      else v
  }

  // ----- Check 3: patterns compile -----

  /** Every one of the patterns compiles. */
  predicate AllCompile(valid: string -> bool, patterns: seq<string>) {
    forall k :: 0 <= k < |patterns| ==> valid(patterns[k])
  }

  /** Compiles the patterns in order, stopping at the first one that does not. */
  function CompilePatterns(valid: string -> bool, patterns: seq<string>): (r: Result<seq<Regex>, ValidationError>)
    ensures r.Success? <==> AllCompile(valid, patterns)
    ensures r.Success? ==>
      |r.value| == |patterns| && forall k :: 0 <= k < |patterns| ==> r.value[k].pattern == patterns[k]
    ensures r.Failure? ==>
      exists k :: 0 <= k < |patterns| && !valid(patterns[k]) && r.error == InvalidRegex(patterns[k])
        && forall l :: 0 <= l < k ==> valid(patterns[l])
  {
    if |patterns| == 0 then Success([])
    else if !valid(patterns[0]) then Failure(InvalidRegex(patterns[0]))
    else
      var rest :- CompilePatterns(valid, patterns[1..]);
      Success([Regex(patterns[0])] + rest)
  }

  /** `q` is `p` with, at most, other compiled patterns. */
  predicate SameExceptInstances(p: Profile, q: Profile) {
    q == p.(matchInstances := q.matchInstances)
  }

  /** The profile's compiled patterns are its `matches`, one for one. */
  predicate Compiled(p: Profile) {
    |p.matchInstances| == |p.matches|
    && forall k :: 0 <= k < |p.matches| ==> p.matchInstances[k].pattern == p.matches[k]
  }

  /** Every pattern of every profile compiles. */
  predicate AllPatternsValid(valid: string -> bool, profiles: seq<Profile>) {
    forall i :: 0 <= i < |profiles| ==> AllCompile(valid, profiles[i].matches)
  }

  /** The source's third loop: each profile in turn gets its compiled patterns;
      at the first profile with a pattern that does not compile the loop stops,
      leaving the earlier profiles updated and that one and the later ones as
      they were. */
  function CompileProfiles(valid: string -> bool, profiles: seq<Profile>): (r: (seq<Profile>, Outcome<ValidationError>))
    ensures |r.0| == |profiles|
    ensures forall i :: 0 <= i < |profiles| ==> SameExceptInstances(profiles[i], r.0[i])
    ensures r.1.Pass? <==> AllPatternsValid(valid, profiles)
    ensures r.1.Pass? ==> forall i :: 0 <= i < |profiles| ==> Compiled(r.0[i])
    ensures r.1.Fail? ==> exists j :: StoppedAt(valid, profiles, r.0, r.1.error, j)
  {
    if |profiles| == 0 then ([], Pass)
    else
      match CompilePatterns(valid, profiles[0].matches)
      case Failure(e) =>
        AllPatternsValidSplit(valid, profiles);
        assert StoppedAt(valid, profiles, profiles, e, 0);
        (profiles, Fail(e))
      case Success(instances) =>
        var rest := CompileProfiles(valid, profiles[1..]);
        var r := ([profiles[0].(matchInstances := instances)] + rest.0, rest.1);
        PrependShifts(valid, profiles, profiles[0].(matchInstances := instances), rest.0, rest.1);
        FailureShifts(valid, profiles, profiles[0].(matchInstances := instances), rest.0, rest.1);
        AllPatternsValidSplit(valid, profiles);
        r
  }

  /** Every pattern of a non-empty list compiles iff those of its first profile
      and those of the rest do. */
  lemma AllPatternsValidSplit(valid: string -> bool, profiles: seq<Profile>)
    requires |profiles| > 0
    ensures AllPatternsValid(valid, profiles) <==>
      AllCompile(valid, profiles[0].matches) && AllPatternsValid(valid, profiles[1..])
  {
    if AllCompile(valid, profiles[0].matches) && AllPatternsValid(valid, profiles[1..]) {
      forall i | 0 <= i < |profiles|
        ensures AllCompile(valid, profiles[i].matches)
      {
        if i > 0 {
          assert profiles[i] == profiles[1..][i - 1];
        }
      }
    }
  }

  /** The per-profile facts about the tail's compilation carry over to the whole
      list, one index further on. */
  lemma PrependShifts(valid: string -> bool, profiles: seq<Profile>, head: Profile, restOut: seq<Profile>,
                      outcome: Outcome<ValidationError>)
    requires |profiles| > 0 && |restOut| == |profiles| - 1
    requires SameExceptInstances(profiles[0], head) && Compiled(head)
    requires forall i :: 0 <= i < |profiles[1..]| ==> SameExceptInstances(profiles[1..][i], restOut[i])
    requires outcome.Pass? ==> forall i :: 0 <= i < |profiles[1..]| ==> Compiled(restOut[i])
    ensures forall i :: 0 <= i < |profiles| ==> SameExceptInstances(profiles[i], ([head] + restOut)[i])
    ensures outcome.Pass? ==> forall i :: 0 <= i < |profiles| ==> Compiled(([head] + restOut)[i])
  {
    var out := [head] + restOut;
    forall i | 1 <= i < |profiles|
      ensures SameExceptInstances(profiles[i], out[i]) && out[i] == restOut[i - 1]
    {
      assert profiles[i] == profiles[1..][i - 1];
    }
  }

  /** Compilation stopped at profile `j` with error `e`: the profiles before it
      had only patterns that compile and were compiled, and it and the later ones
      were left as they were. */
  predicate StoppedAt(valid: string -> bool, profiles: seq<Profile>, out: seq<Profile>, e: ValidationError, j: int) {
    && 0 <= j < |profiles| && |out| == |profiles|
    && CompilePatterns(valid, profiles[j].matches) == Failure(e)
    && (forall i :: 0 <= i < j ==> AllCompile(valid, profiles[i].matches) && Compiled(out[i]))
    && (forall i :: j <= i < |profiles| ==> out[i] == profiles[i])
  }

  /** Where the tail's compilation stopped, the whole list's stopped one index
      further on. */
  lemma FailureShifts(valid: string -> bool, profiles: seq<Profile>, head: Profile, restOut: seq<Profile>,
                      outcome: Outcome<ValidationError>)
    requires |profiles| > 0 && Compiled(head) && AllCompile(valid, profiles[0].matches)
    requires outcome.Fail? ==> exists j :: StoppedAt(valid, profiles[1..], restOut, outcome.error, j)
    ensures outcome.Fail? ==> exists j :: StoppedAt(valid, profiles, [head] + restOut, outcome.error, j)
  {
    if outcome.Fail? {
      var j :| StoppedAt(valid, profiles[1..], restOut, outcome.error, j);
      var out := [head] + restOut;
      assert profiles[j + 1] == profiles[1..][j];
      forall i | 0 <= i < j + 1
        ensures AllCompile(valid, profiles[i].matches) && Compiled(out[i])
      {
        if i > 0 {
          assert out[i] == restOut[i - 1];
          assert profiles[i] == profiles[1..][i - 1];
        }
      }
      forall i | j + 1 <= i < |profiles|
        ensures out[i] == profiles[i]
      {
        assert profiles[i] == profiles[1..][i - 1];
      }
      assert StoppedAt(valid, profiles, out, outcome.error, j + 1);
    }
  }

  // ----- The whole validation -----

  /** `v` is what the chain of the first profile, in list order, whose chain does
      not end at a root finds. */
  predicate ReportedChain(profiles: seq<Profile>, v: DeriveVerdict) {
    exists j :: 0 <= j < |profiles| && ChainVerdict(profiles, profiles[j]) == v
      && forall k :: 0 <= k < j ==> Ending(profiles, profiles[k]).AtRoot?
  }

  /** The configuration after validation (compiled patterns may have been stored)
      and whether validation passed. */
  datatype Validated = Validated(config: Config, outcome: Outcome<ValidationError>)

  /** A run of the source's `validate`: it returns, or it never returns. */
  datatype Run = Returns(result: Validated) | Hangs

  /** `Config::validate` as the source writes it: a cyclic derive chain met before
      any dangling one makes it loop forever. It hangs only with distinct keys and
      a chain that does not end at a root; when it returns, it passes exactly
      when all three checks hold, and only the pattern check touches the
      configuration. */
  function ValidateAsWritten(valid: string -> bool, c: Config): (r: Run)
    ensures r.Hangs? ==> DistinctKeys(c.profiles) && !AllChainsRooted(c.profiles)
    ensures r.Returns? && r.result.outcome.Pass? <==>
      DistinctKeys(c.profiles) && AllChainsRooted(c.profiles) && AllPatternsValid(valid, c.profiles)
    ensures !DistinctKeys(c.profiles) ==>
      r == Returns(Validated(c, Fail(DuplicateKey(FirstDuplicate(c.profiles).value))))
    ensures r.Returns? && r.result.outcome.Fail? && !r.result.outcome.error.InvalidRegex? ==>
      r.result.config == c
    ensures r.Returns? && r.result.outcome.Fail? && r.result.outcome.error.UnknownDerive? ==>
      ReportedChain(c.profiles, Dangling(r.result.outcome.error.holder, r.result.outcome.error.missing))
    ensures r.Returns? && r.result.outcome.Fail? && r.result.outcome.error.InvalidRegex? ==>
      && r.result.config == c.(profiles := r.result.config.profiles)
      && exists j :: StoppedAt(valid, c.profiles, r.result.config.profiles, r.result.outcome.error, j)
  {
    match FirstDuplicate(c.profiles)
    case Some(k) => Returns(Validated(c, Fail(DuplicateKey(k))))
    case None =>
      match CheckDerives(c.profiles, 0)
      case Cycle(_) => Hangs
      case Dangling(holder, missing) => Returns(Validated(c, Fail(UnknownDerive(holder, missing))))
      case AllRooted =>
        var (profiles, outcome) := CompileProfiles(valid, c.profiles);
        Returns(Validated(c.(profiles := profiles), outcome))
  }

  /** `Config::validate` with the cycle rejected: the first check that fails is
      reported, duplicate keys before derive errors before pattern errors; only
      the pattern check changes the configuration, and only `matchInstances`. */
  function Validate(valid: string -> bool, c: Config): (r: Validated)
    ensures r.config.authInfo == c.authInfo && r.config.property == c.property
    ensures |r.config.profiles| == |c.profiles|
    ensures forall i :: 0 <= i < |c.profiles| ==> SameExceptInstances(c.profiles[i], r.config.profiles[i])
    ensures r.outcome.Pass? <==>
      DistinctKeys(c.profiles) && AllChainsRooted(c.profiles) && AllPatternsValid(valid, c.profiles)
    ensures r.outcome.Pass? ==> forall i :: 0 <= i < |c.profiles| ==> Compiled(r.config.profiles[i])
    ensures r.outcome.Fail? && r.outcome.error.DuplicateKey? <==> !DistinctKeys(c.profiles)
    ensures r.outcome.Fail? && (r.outcome.error.UnknownDerive? || r.outcome.error.CyclicDerive?) <==>
      DistinctKeys(c.profiles) && !AllChainsRooted(c.profiles)
    ensures r.outcome.Fail? && r.outcome.error.InvalidRegex? ==>
      DistinctKeys(c.profiles) && AllChainsRooted(c.profiles)
    ensures r.outcome.Fail? && !r.outcome.error.InvalidRegex? ==> r.config == c
    ensures r.outcome.Fail? && r.outcome.error.UnknownDerive? ==>
      ReportedChain(c.profiles, Dangling(r.outcome.error.holder, r.outcome.error.missing))
    ensures r.outcome.Fail? && r.outcome.error.CyclicDerive? ==>
      ReportedChain(c.profiles, Cycle(r.outcome.error.start))
    ensures r.outcome.Fail? && r.outcome.error.InvalidRegex? ==>
      && r.config == c.(profiles := r.config.profiles)
      && exists j :: StoppedAt(valid, c.profiles, r.config.profiles, r.outcome.error, j)
  {
    match FirstDuplicate(c.profiles)
    case Some(k) => Validated(c, Fail(DuplicateKey(k)))
    case None =>
      match CheckDerives(c.profiles, 0)
      case Cycle(start) => Validated(c, Fail(CyclicDerive(start)))
      case Dangling(holder, missing) => Validated(c, Fail(UnknownDerive(holder, missing)))
      case AllRooted =>
        var (profiles, outcome) := CompileProfiles(valid, c.profiles);
        Validated(c.(profiles := profiles), outcome)
  }

  // ----- Properties -----

  /** The corrected validation differs from the source only where the source does
      not return: there the source is stuck walking a cycle from some profile,
      after every earlier profile's chain ended at a root. */
  lemma ValidateMatchesSource(valid: string -> bool, c: Config)
    ensures ValidateAsWritten(valid, c).Returns? ==>
      Validate(valid, c) == ValidateAsWritten(valid, c).result
    ensures ValidateAsWritten(valid, c).Hangs? <==>
      Validate(valid, c).outcome.Fail? && Validate(valid, c).outcome.error.CyclicDerive?
    ensures ValidateAsWritten(valid, c).Hangs? ==>
      exists j :: 0 <= j < |c.profiles| && Diverges(c.profiles, c.profiles[j])
        && forall k :: 0 <= k < j ==> Ending(c.profiles, c.profiles[k]).AtRoot?
  {
    var source := ValidateAsWritten(valid, c);
    var fixed := Validate(valid, c);
    if FirstDuplicate(c.profiles).None? && CheckDerives(c.profiles, 0).Cycle? {
      assert source.Hangs? && fixed.outcome.error.CyclicDerive?;
    } else {
      assert source.Returns? && source.result == fixed;
    }
    if ValidateAsWritten(valid, c).Hangs? {
      var j :| 0 <= j < |c.profiles| && CheckDerives(c.profiles, 0) == ChainVerdict(c.profiles, c.profiles[j])
        && forall k :: 0 <= k < j ==> Ending(c.profiles, c.profiles[k]).AtRoot?;
      BudgetSuffices(c.profiles, c.profiles[j]);
    }
  }

  /** A chain that reaches a `derive` naming an unknown key makes validation fail:
      the corrected validation always reports it (or an earlier error), and the
      source either reports an error or never returns. */
  lemma DanglingDeriveRejected(valid: string -> bool, c: Config, j: int, steps: nat)
    requires 0 <= j < |c.profiles|
    requires WalkFrom(c.profiles, c.profiles[j], steps).stop.AtMissing?
    ensures Validate(valid, c).outcome.Fail?
    ensures ValidateAsWritten(valid, c).Hangs? || ValidateAsWritten(valid, c).result.outcome.Fail?
  {
    EndingIsTheEnd(c.profiles, c.profiles[j], steps);
    ValidateMatchesSource(valid, c);
  }

  /** After a successful validation every profile's chain ends at a profile
      without `derive`, so resolving any listed profile returns. */
  lemma ValidatedChainsEnd(valid: string -> bool, c: Config, i: int)
    requires Validate(valid, c).outcome.Pass?
    requires 0 <= i < |c.profiles|
    ensures Ending(c.profiles, c.profiles[i]).AtRoot?
    ensures Resolve.ResolveTerminates(c.profiles, c.profiles[i].key)
    ensures Lookup(c.profiles, c.profiles[i].key) == Some(c.profiles[i])
  {
    LookupOwnKey(c.profiles, i);
  }

  /** Two profiles deriving from each other: the source's validation never
      returns, while the corrected one reports the cycle. */
  lemma MutualDeriveHangs(valid: string -> bool, authInfo: AuthInfo, property: Property)
    ensures var a := Profile("a", [], [], Some("b"), None, None, None, None, None, None, None, []);
      var b := Profile("b", [], [], Some("a"), None, None, None, None, None, None, None, []);
      var c := Config(authInfo, property, [a, b]);
      && Diverges(c.profiles, a)
      && ValidateAsWritten(valid, c) == Hangs
      && Validate(valid, c) == Validated(c, Fail(CyclicDerive("a")))
  {
    var a := Profile("a", [], [], Some("b"), None, None, None, None, None, None, None, []);
    var b := Profile("b", [], [], Some("a"), None, None, None, None, None, None, None, []);
    var profiles := [a, b];
    assert Lookup(profiles, "b") == Some(b);
    assert Lookup(profiles, "a") == Some(a);
    forall steps: nat
      ensures WalkFrom(profiles, a, steps).stop.OutOfSteps?
    {
      ClosedSetDiverges(profiles, {a, b}, a, steps);
    }
    assert FirstDuplicate(profiles).None?;
    assert ChainVerdict(profiles, a) == Cycle("a");
  }

  /** The sample configuration written on first run passes validation unchanged,
      provided its one pattern compiles. */
  lemma SampleConfigValidates(valid: string -> bool, authInfo: AuthInfo)
    requires valid(SamplePattern)
    ensures Validate(valid, NewExample(authInfo)) == Validated(NewExample(authInfo), Pass)
    ensures ValidateAsWritten(valid, NewExample(authInfo)) == Returns(Validated(NewExample(authInfo), Pass))
  {
    var c := NewExample(authInfo);
    assert Ending(c.profiles, SampleProfile()).AtRoot?;
    assert CheckDerives(c.profiles, 0) == AllRooted;
    var patterns := [SamplePattern];
    assert patterns[1..] == [];
    assert CompilePatterns(valid, patterns[1..]) == Success([]);
    assert valid(patterns[0]);
    assert [Regex(patterns[0])] + [] == [Regex(SamplePattern)];
    assert CompilePatterns(valid, patterns) == Success([Regex(SamplePattern)]);
  }
}

=== FILE: wrappers.dfy ===
/** Failure-compatible wrappers shared by the configuration and the decoder models:
    `Option` for Rust's `Option`, `Result` for `Result<T, E>`, and `Outcome` for
    `Result<(), E>`. */
module Wrappers {

  datatype Option<+T> = None | Some(value: T) {

    predicate IsFailure() {
      None?
    }

    function PropagateFailure<U>(): Option<U>
      requires None?
    {
      None
    }

    function Extract(): T
      requires Some?
    {
      value
    }

    /** Rust's `Option::or`: keeps this value when present, otherwise takes `other`. */
    function Or(other: Option<T>): Option<T> {
      if Some? then this else other
    }
  }

  datatype Result<+T, +E> = Success(value: T) | Failure(error: E) {

    predicate IsFailure() {
      Failure?
    }

    function PropagateFailure<U>(): Result<U, E>
      requires Failure?
    {
      Failure(error)
    }

    function Extract(): T
      requires Success?
    {
      value
    }
  }

  /** `Result<(), E>`: either the step passed or it failed with an error. */
  datatype Outcome<+E> = Pass | Fail(error: E)
}
